=== FILE: README.md ===
# LogService session model

A Dafny model of the client session of the logs front end: `LogService`, a
single-threaded, event-driven client for a WAMP-style protocol. The protocol
sends tagged JSON arrays over one WebSocket. Once the socket is abstracted
away, every handler is a deterministic transition. Each operation is a pure
function from a `Session.State` to a `Session.Next`. A `Next` holds the new
state and the trace of effects, in order. An effect is a frame written to
the socket or a callback hook invoked.

Modules:

- `MessageTypes` (`message_types.dfy`): the tag table. Maps each kind to its code and reads a code back.
- `Messages` (`messages.dfy`): JSON values and the closed `Message` union. It has one variant per tag. `Encode` and `Decode` convert messages to and from wire frames.
- `CallId` (`call_id.dfy`): the 62-character alphabet and the 16-character call identifiers. Randomness is an oracle: `oracle(k)` is the index chosen by the k-th draw.
- `OutboundQueue` (`outbound_queue.dfy`): the deduplicating queue (`unsentMessage`).
- `Subscriptions` (`subscriptions.dfy`): the registry of subscribed URIs (`subscribes`).
- `Text` (`text.dfy`): `includes` and ASCII `toLowerCase`.
- `Session` (`session.dfy`): the state, the send gate, the login flow, the inbound handlers, the dispatcher, heartbeat, teardown and the public operations.
- `Client` (`client.dfy`): the session driven by a sequence of inputs (socket events, frames, timer ticks, API calls), and the invariant every input preserves.
- `SessionProperties` (`session_properties.dfy`): properties spanning several operations, the literal frames, and concrete scenarios.

The model follows the code as written. In these places the code behaves differently from the intended design:

- Flushing the queue after a login does not drain it. `slice` at `src/services/LogService.ts:128` removes nothing, and re-queuing is deduplicated. So the queue is unchanged, and every later successful login re-sends it.
- The heartbeat interval starts only when the queue was non-empty at login (`src/services/LogService.ts:125-131`).
- The outbound heartbeat sends the counter without incrementing it (`src/services/LogService.ts:259`). Only inbound heartbeats increment it.
- A socket close clears the token (`src/services/LogService.ts:238`), so re-login after a reconnect uses the password.
- A login-related call error keeps the token (`src/services/LogService.ts:155-159`), so the retry is a token login.
- A socket close keeps the queue and the registry. Only `disconnect()` empties them.
- The login call is written at once only when the socket is open. Otherwise it is queued like any other message.
- `setIntervalHeartbeat` overwrites the stored interval id without clearing the old interval. After a second successful login with a non-empty queue, two intervals run. `clearIntervalHeartbeat` can then stop only one of them. The model counts such intervals in `orphanTimers` (see `SessionProperties.SecondLoginResendsAndOrphansTimer`).
- Logging out or a login error does not stop the heartbeat. After `logout()` the next tick passes a heartbeat to the send gate, which logs in again with the password (see `SessionProperties.LogoutThenTickLogsInAgain`).

## Model

| member | source | states |
|---|---|---|
| `MessageTypes.KindOfTag` | src/Helpers/MessageTypes.ts:3-12 | reading a code back yields a kind exactly for the eight table codes; that kind has that code, and it is the only kind with it (codes are pairwise distinct) |
| `MessageTypes.TagsDistinct` | src/Helpers/MessageTypes.ts:4-11 | two kinds have the same code iff they are the same kind |
| `MessageTypes.KindRoundTrip` | src/Helpers/MessageTypes.ts:4-11 | kind to code and back yields the same kind, for all eight kinds |
| `Messages.Encode` | src/models/ISocketOutgoingMessage.ts:6 | every frame has at least two elements and starts with the table code of its variant |
| `Messages.Decode` | src/models/ISocketIncomingMessage.ts:8 | a frame that decodes starts with the table code of the variant it decodes to |
| `Messages.DecodeEncode` | src/models/ISocketIncomingMessage.ts:8 | wire fidelity: decoding the encoding of any message of any variant gives it back |
| `Messages.EncodeDecode` | src/models/ISocketOutgoingMessage.ts:6 | conversely, a decodable frame begins with the encoding of its decoded message (extra trailing elements, as destructuring ignores them) |
| `Messages.StringsOfStrValues` | src/models/ICall.ts:4 | the string arguments of a call survive encoding to JSON strings and reading back |
| `Messages.StrValuesOfStrings` | src/models/ICall.ts:4 | a run of JSON strings that reads back is exactly the encoding of what it reads as |
| `Messages.UnknownTagUndecoded` | src/Helpers/MessageTypes.ts:3-12 | a frame whose tag is not in the table decodes to nothing |
| `Messages.StrValues` | src/services/LogService.ts:274 | the arguments of a call become JSON strings, one per argument, in order |
| `Text.IncludesIsInfix` | src/services/LogService.ts:187 | the scanning `includes` holds iff the needle occurs at some position of the string (both directions) |
| `Text.IncludesWitness` | src/services/LogService.ts:187 | when `includes` holds, it has found a position where the needle occurs |
| `Text.IncludesAt` | src/services/LogService.ts:155 | an occurrence at a known position makes `includes` true |
| `Text.ToLower` | src/services/LogService.ts:155 | lower-casing keeps the length and lower-cases each ASCII letter in place, leaving every other character alone |
| `Text.ToLowerIdempotent` | src/services/LogService.ts:155 | lower-casing an already lower-cased string changes nothing |
| `CallId.AlphabetIsAlphanumerics` | src/services/LogService.ts:225-226 | the character table has 62 entries: upper case, lower case, then digits, all alphanumeric and pairwise distinct |
| `CallId.CallIdAt` | src/services/LogService.ts:223-233 | a call identifier has 16 characters, each alphanumeric |
| `CallId.CallIdDeterminedByDraws` | src/services/LogService.ts:228-231 | two identifiers are equal iff their 16 random draws are equal |
| `CallId.GenerateCallId` | src/services/LogService.ts:223-233 | the loop appends one drawn character per iteration and returns the identifier of those 16 draws |
| `OutboundQueue.Enqueue` | src/services/LogService.ts:61-69 | after enqueueing, the message is queued; the old entries keep their order as a prefix; the length grows by at most one; nothing else enters; no duplicates are introduced |
| `OutboundQueue.EnqueueIdempotent` | src/services/LogService.ts:61-69 | enqueueing the same message twice equals enqueueing it once |
| `OutboundQueue.EnqueueQueued` | src/services/LogService.ts:62-66 | enqueueing a message equal to one already queued leaves the queue as it was |
| `OutboundQueue.EnqueueAllSpec` | src/services/LogService.ts:61-69 | after any sequence of enqueues, each message is queued exactly once, the old queue is a prefix, and nothing else is queued |
| `OutboundQueue.EnqueueAllMember` | src/services/LogService.ts:61-69 | after any sequence of enqueues the queue holds exactly the old entries and the enqueued messages |
| `OutboundQueue.EnqueueAllFresh` | src/services/LogService.ts:61-69 | enqueueing distinct messages that are not yet queued appends all of them, in their order |
| `Subscriptions.IndexOf` | src/services/LogService.ts:80 | `indexOf` finds the first occurrence of the URI |
| `Subscriptions.Update` | src/services/LogService.ts:71-88 | a redundant toggle is a no-op; activation leaves the URI present; deactivation of a duplicate-free registry leaves it absent; other URIs are untouched; no duplicates are introduced |
| `Subscriptions.UpdateIdempotent` | src/services/LogService.ts:71-88 | toggling the same way twice equals toggling once |
| `Subscriptions.ActivateThenDeactivate` | src/services/LogService.ts:79-87 | deactivating a URI just activated restores the registry exactly |
| `Session.Init` | src/services/LogService.ts:42-59 | the constructor leaves the socket closed, the session unauthenticated with no token, `auth()` blocked until a welcome, queue and registry empty, the counter at zero, and no interval running |
| `Session.SendMessage` | src/services/LogService.ts:90-101 | if the socket is open and the session is authenticated or the message is a login, it is written and nothing changes. Otherwise it is queued. If unauthenticated and a login can start, the login call is written first (open socket) or queued ahead of it |
| `Session.Auth` | src/services/LogService.ts:262-277 | a no-op while a login is in flight or before a welcome. Otherwise it marks a login in flight and draws one identifier. It then writes exactly one login call (open socket) or queues it |
| `Session.OnWelcome` | src/services/LogService.ts:103-109 | stores the session id and starts a login: one login call on an open socket, queued otherwise, none if a login is in flight or the id is empty. Socket, counter and intervals are unchanged; one identifier is drawn exactly when a login starts |
| `Session.SetInterval` | src/services/LogService.ts:111-115 | one more heartbeat interval runs and its id is stored; nothing else changes |
| `Session.ClearInterval` | src/services/LogService.ts:117-122 | stops only the interval whose id is stored; intervals whose id was overwritten keep running |
| `Session.Flush` | src/services/LogService.ts:126-129 | re-sending queued messages while authenticated writes them in order on an open socket and leaves the state, queue included, unchanged |
| `Session.OnAfterAuth` | src/services/LogService.ts:124-133 | with an authenticated session and a non-empty queue, re-sends the queue in order and starts an interval; otherwise does nothing |
| `Session.OnCallResult` | src/services/LogService.ts:135-150 | a payload with a `Token` key (`IsAuthResult`) stores the token if it is a string and `''` otherwise (`TokenOf`), authenticates, and clears the in-flight flag. It re-sends the queue in order without draining it, and starts a heartbeat interval only if the queue was non-empty. The result hook then runs once. Any other result changes nothing and calls nothing |
| `Session.OnCallError` | src/services/LogService.ts:152-168 | a URI containing "login" in any case (`IsLoginRelated`) clears authenticated and in-flight, keeps the token, and retries the login once after a welcome: the login call is written on an open socket and queued on a closed one, drawing one identifier. Socket, counter and intervals are unchanged, and the queue changes only by that queued login. The error hook gets (uri, description, details) for every error; other errors change no state |
| `Session.OnEvent` | src/services/LogService.ts:170-193 | a truthy `SubscribeError` (`Truthy`, the `!!` of line 172) removes the URI, keeping a duplicate-free registry duplicate-free, and calls only the subscribe-error hook. Otherwise the data hook is called, plus the logs hook when the URI contains the logs path (`IsLogsTopic`), with `isInit` meaning `Action === 3`. Only the registry can change |
| `Session.OnHeartbeat` | src/services/LogService.ts:195-199 | an inbound heartbeat adds exactly one to the counter and changes nothing else |
| `Session.HandleSocketMessage` | src/services/LogService.ts:201-221 | frames that do not decode, and outbound-only calls, subscribes and unsubscribes, change nothing and produce nothing; no frame stops an orphaned interval or rewinds the random stream |
| `Session.SendHeartbeat` | src/services/LogService.ts:258-260 | the outbound heartbeat carries the current counter without changing it and passes through the send gate exactly as `sendMessage` does (`Gated`): written with the state untouched on an open authenticated session, otherwise queued behind the old entries, after a login is written or queued first when the session is unauthenticated and a login can start |
| `Session.TimerFired` | src/services/LogService.ts:111-115 | with no interval running nothing happens. Otherwise the counter, socket and intervals are unchanged, and the heartbeat passes through the send gate exactly as `sendMessage` does (`Gated`): written with the state untouched on an open authenticated session, otherwise queued behind the old entries, after a login is written or queued first when the session is unauthenticated and a login can start |
| `Session.ClearConnection` | src/services/LogService.ts:235-243 | resets socket, authentication, token, session id, in-flight flag, counter and stored interval to the constructor's values; keeps the queue, the registry and orphaned intervals |
| `Session.Disconnect` | src/services/LogService.ts:333-342 | additionally empties the queue and the registry: the constructor's state, apart from orphaned intervals |
| `Session.Logout` | src/services/LogService.ts:279-285 | when authenticated, sends (or queues) one logout call drawing one identifier, then forgets token and authentication; socket, counter and heartbeat intervals are unchanged. Otherwise does nothing |
| `Session.CallRemote` | src/services/LogService.ts:287-289 | the call passes through the send gate exactly as `sendMessage` does (`Gated`): written with the state untouched on an open authenticated session, otherwise queued behind the old entries, after a login is written or queued first when the session is unauthenticated and a login can start |
| `Session.SubscribeTo` | src/services/LogService.ts:291-295 | the URI ends up subscribed and other URIs are untouched; then the subscribe frame, even when already subscribed, passes through the send gate exactly as `sendMessage` does (`Gated`): written with the state untouched on an open authenticated session, otherwise queued behind the old entries, after a login is written or queued first when the session is unauthenticated and a login can start |
| `Session.UnsubscribeFrom` | src/services/LogService.ts:297-301 | the URI ends up absent and other URIs are untouched; then the unsubscribe frame, even when not subscribed, passes through the send gate exactly as `sendMessage` does (`Gated`): written with the state untouched on an open authenticated session, otherwise queued behind the old entries, after a login is written or queued first when the session is unauthenticated and a login can start |
| `Session.SubscribeForLogs` | src/services/LogService.ts:303-305 | the logs topic under the base URI ends up subscribed, other URIs untouched, and `[5, logsUri]` passes through the send gate exactly as `sendMessage` does (`Gated`): written with the state untouched on an open authenticated session, otherwise queued behind the old entries, after a login is written or queued first when the session is unauthenticated and a login can start |
| `Session.UnsubscribeForLogs` | src/services/LogService.ts:307-309 | the logs topic under the base URI ends up absent, other URIs untouched, and `[6, logsUri]` passes through the send gate exactly as `sendMessage` does (`Gated`): written with the state untouched on an open authenticated session, otherwise queued behind the old entries, after a login is written or queued first when the session is unauthenticated and a login can start |
| `Client.SendMessageKeepsValid` | src/services/LogService.ts:90-101 | the send gate keeps the queue duplicate-free, leaves the registry alone, and only writes frames on an open socket |
| `Client.AuthKeepsValid` | src/services/LogService.ts:262-277 | so does the login |
| `Client.Step` | src/services/LogService.ts:311-331 | no input (socket event, frame, tick, API call) stops an orphaned interval, and the random stream is never rewound |
| `Client.HandleSocketMessageKeepsValid` | src/services/LogService.ts:201-221 | every inbound frame keeps the queue and registry duplicate-free and writes only on an open socket |
| `Client.StepKeepsValid` | src/services/LogService.ts:61-88 | every input (socket event, frame, tick, API call) keeps the queue and registry duplicate-free and writes only on an open socket |
| `Client.Run` | src/services/LogService.ts:311-331 | any sequence of inputs preserves the duplicate-freedom of queue and registry |
| `Client.NoDuplicatesFromInit` | src/services/LogService.ts:42-59 | from the constructor's state, every run of inputs leaves queue and registry duplicate-free |
| `SessionProperties.SendGateIff` | src/services/LogService.ts:90-101 | a message is written with no state change iff the socket is open and (authenticated or login); otherwise it is queued behind everything queued before |
| `SessionProperties.AuthTwiceIsAuthOnce` | src/services/LogService.ts:263-267 | a second `auth()` right after the first does nothing: at most one login in flight |
| `SessionProperties.LoginCallFrame` | src/services/LogService.ts:268-276 | the login frame is `[2, id, "http://enter.local/loginByToken", token]` with a token and `[2, id, "http://enter.local/login", username, password]` without, with a 16-character alphanumeric id |
| `SessionProperties.HardCodedFrames` | src/services/LogService.ts:259-308 | the literal frames for logout, heartbeat, subscribe and unsubscribe use the table codes 2, 20, 5 and 6 |
| `SessionProperties.LoginUriIsLoginRelated` | src/services/LogService.ts:155 | an error on the session's own password-login URI counts as login-related |
| `SessionProperties.LoginByTokenUriIsLoginRelated` | src/services/LogService.ts:155 | so does an error on the token-login URI |
| `SessionProperties.UpperCaseLoginIsLoginRelated` | src/services/LogService.ts:155 | the test ignores case: "/LOGIN" counts |
| `SessionProperties.LoginRelatedIgnoresCase` | src/services/LogService.ts:155 | a URI and its lower-cased form are login-related alike |
| `SessionProperties.SecondLoginResendsAndOrphansTimer` | src/services/LogService.ts:124-133 | two successive login results on an open socket each re-send the whole queue; the second starts a second interval, one of which survives a socket close |
| `SessionProperties.CallsWhileUnauthenticatedAreQueued` | src/services/LogService.ts:287-289 | any sequence of `call`s made while a login is in flight or before a welcome writes nothing and leaves the state as it was, except that each call joins the queue once, behind the old entries (`EnqueueAll`) |
| `SessionProperties.CallsSentInOrderAfterLogin` | src/services/LogService.ts:124-150 | when the login result then arrives on an open socket, the old entries and those calls are written in queue order before the result hook runs. Every call is among them, none twice if the old queue had no duplicates. Distinct new calls follow the old entries exactly in the order they were made |
| `Session.SendsLength` | src/services/LogService.ts:126-127 | the flush trace has one `Send` per queued message, in queue order |
| `SessionProperties.DispatchRoutes` | src/services/LogService.ts:201-221 | tags 0, 3, 4, 8 and 20 go to onWelcome, onCallResult, onCallError, onEvent and onHeartbeat |
| `SessionProperties.DispatchIgnoresOtherTags` | src/services/LogService.ts:218-219 | every other tag, outbound-only 2, 5 and 6 included, leaves state and trace unchanged |
| `SessionProperties.InboundHeartbeatCounts` | src/services/LogService.ts:195-199 | an inbound `[20, n]` frame adds exactly one to the counter, whatever n is, and produces nothing |
| `SessionProperties.ClearConnectionIdempotent` | src/services/LogService.ts:333-342 | the close event that follows `disconnect()` changes nothing more |
| `SessionProperties.CloseKeepsQueueDisconnectDoesNot` | src/services/LogService.ts:235-243 | a close keeps queue and registry and clears authentication, token, session id and counter; `disconnect()` empties queue and registry |
| `SessionProperties.NoAuthAfterClose` | src/services/LogService.ts:239 | after a close, `auth()` does nothing until a new welcome |
| `SessionProperties.LogoutThenTickLogsInAgain` | src/services/LogService.ts:258-285 | after `logout()` on an open socket, the next heartbeat tick writes a password login to `http://enter.local/login` and queues the heartbeat |
| `SessionProperties.WelcomeScenario` | src/services/LogService.ts:103-109 | welcome `[0,"sess1","1.0","srv"]` on an open socket writes `[2, id, "http://enter.local/login", "user", "pass"]` |
| `SessionProperties.TokenResultScenario` | src/services/LogService.ts:135-150 | `[3, id, {"Token":"abc"}]` while logging in authenticates with token "abc", flushes the queue in order, starts the heartbeat and calls the result hook |
| `SessionProperties.LogsEventScenario` | src/services/LogService.ts:182-190 | an event on the logs topic with `Action` 3 calls the data hook and then the logs hook with `isInit` true and the items |
| `SessionProperties.SubscribeErrorScenario` | src/services/LogService.ts:175-181 | `[8, "topicX", {"SubscribeError":"denied"}]` removes topicX and calls only the subscribe-error hook |

## Left out

- `connect()` and `isReadyStateWS()` are not modelled. The WebSocket construction and listener wiring (`src/services/LogService.ts:311-331`) and the ready-state test (`src/services/LogService.ts:344-346`) become the boolean `wsOpen`. Socket open, error and close events are `Client.Input`s. Listeners of an earlier socket after a second `connect()` are not modelled.
- `JSON.parse` and `JSON.stringify` become `Messages.Decode` and `Messages.Encode`. Queue deduplication compares messages structurally. Outbound messages hold only strings and numbers, so this agrees with comparing their JSON text.
- Frames whose declared positions are missing or have the wrong JSON type are dropped. The source would continue with `undefined` fields or throw a TypeError.
- JSON numbers are unbounded integers: no fractions, NaN or double rounding. The heartbeat counter never loses precision.
- `Math.random` is the `Env.oracle` of random draws.
- The 30-second timer period is left out. A tick is the `HeartbeatTick` input, which fires one running interval; which interval fires is not distinguished.
- Console logging in the open, error and close handlers is left out.
- Callback hooks are trace effects. Whether each hook is configured is a flag in `Env.hooks`. Their asynchrony and the Promises they may return are not modelled.
- `toLowerCase` is modelled for ASCII letters only. For the "login" test this is exact. The only non-ASCII character whose lower case contains one of `l`, `o`, `g`, `i`, `n` is `İ`. It lower-cases to `i` followed by a combining dot, so it never completes "login".
- Payload contents are opaque JSON values. Only `Token`, `SubscribeError`, `Action` and `Items` are read. The log records in `Items` are passed through without interpretation.
- Messages are values. The source queues the caller's own array (`src/services/LogService.ts:67`) and compares by `JSON.stringify` only when inserting. The model assumes callers never change a message after passing it to `call`, `subscribe` or `unsubscribe`. A caller that does could make a queued call read differently or leave two equal entries in the queue, which `Client.Valid` rules out.
- Hooks return normally and never call back into the session. A data hook that throws would skip the logs hook. One that mutates `eventData` would change what the logs hook sees, because it receives the same object (`src/services/LogService.ts:183-190`).
- Session.HandleSocketMessage: its own contract covers the frames it ignores and the monotone interval and draw counts. Where each routed tag goes is stated by `SessionProperties.DispatchRoutes`.

=== FILE: call_id.dfy ===
/**
 * Call identifiers: 16 characters, each drawn uniformly from the 62
 * letters and digits. The random draws are an oracle: `oracle(k)` is the
 * index picked by the k-th draw of the session.
 */
module CallId {

  const Upper: string := "ABCDEFGHIJKLMNOPQRSTUVWXYZ"
  const Lower: string := "abcdefghijklmnopqrstuvwxyz"
  const Digits: string := "0123456789"

  /** The character table, upper case, then lower case, then digits. */
  const Alphabet: string := Upper + Lower + Digits

  /** Characters per identifier. */
  const Length: nat := 16

  /** `Math.floor(Math.random() * 62)`: an index into the alphabet. */
  type CharIndex = i: int | 0 <= i < 62

  /** The stream of random draws. */
  type Oracle = nat -> CharIndex

  predicate IsAlphanumeric(c: char) {
    'A' <= c <= 'Z' || 'a' <= c <= 'z' || '0' <= c <= '9'
  }

  /** Independent description of the alphabet: the code point at each index. */
  function CodeAt(i: CharIndex): int {
    if i < 26 then 'A' as int + i
    else if i < 52 then 'a' as int + i - 26
    else '0' as int + i - 52
  }

  /** The alphabet is the 62 alphanumerics, each once. */
  lemma AlphabetIsAlphanumerics()
    ensures |Alphabet| == 62
    ensures forall i: CharIndex :: Alphabet[i] as int == CodeAt(i) && IsAlphanumeric(Alphabet[i])
    ensures forall i: CharIndex, j: CharIndex :: i != j ==> Alphabet[i] != Alphabet[j]
  {
    assert forall i | 0 <= i < 26 :: Upper[i] as int == 'A' as int + i;
    assert forall i | 0 <= i < 26 :: Lower[i] as int == 'a' as int + i;
    assert forall i | 0 <= i < 10 :: Digits[i] as int == '0' as int + i;
    forall i: CharIndex
      ensures Alphabet[i] as int == CodeAt(i)
    {
      if i < 26 {
        assert Alphabet[i] == Upper[i];
      } else if i < 52 {
        assert Alphabet[i] == Lower[i - 26];
      } else {
        assert Alphabet[i] == Digits[i - 52];
      }
    }
  }

  /** The identifier built from the `Length` draws starting at `from`. */
  function CallIdAt(oracle: Oracle, from: nat): (id: string)
    ensures |id| == Length
    ensures forall i :: 0 <= i < |id| ==> IsAlphanumeric(id[i])
  {
    AlphabetIsAlphanumerics();
    seq(Length, i requires 0 <= i < Length => Alphabet[oracle(from + i)])
  }

  /** The `Length` draws starting at `from`. */
  function Draws(oracle: Oracle, from: nat): seq<CharIndex> {
    seq(Length, i requires 0 <= i < Length => oracle(from + i))
  }

  /** Two identifiers coincide exactly when their draws coincide. */
  lemma CallIdDeterminedByDraws(o1: Oracle, from1: nat, o2: Oracle, from2: nat)
    ensures CallIdAt(o1, from1) == CallIdAt(o2, from2) <==> Draws(o1, from1) == Draws(o2, from2)
  {
    AlphabetIsAlphanumerics();
    var a, b := CallIdAt(o1, from1), CallIdAt(o2, from2);
    var d1, d2 := Draws(o1, from1), Draws(o2, from2);
    if a == b {
      forall i | 0 <= i < Length
        ensures d1[i] == d2[i]
      {
        assert a[i] == Alphabet[d1[i]] && b[i] == Alphabet[d2[i]];
      }
    }
    if d1 == d2 {
      forall i | 0 <= i < Length
        ensures a[i] == b[i]
      {
        assert a[i] == Alphabet[d1[i]] && b[i] == Alphabet[d2[i]];
      }
    }
  }

  /** `generateCallId`: appends one drawn character per iteration. */
  method GenerateCallId(oracle: Oracle, from: nat) returns (id: string)
    ensures id == CallIdAt(oracle, from)
  {
    AlphabetIsAlphanumerics();
    id := "";
    var counter := 0;
    while counter < Length
      invariant 0 <= counter <= Length
      invariant |id| == counter
      invariant forall i :: 0 <= i < counter ==> id[i] == Alphabet[oracle(from + i)]
    {
      id := id + [Alphabet[oracle(from + counter)]];
      counter := counter + 1;
    }
  }
}

=== FILE: client.dfy ===
/**
 * The session driven by its environment: socket events, inbound frames,
 * heartbeat ticks and calls of the public API, one at a time.
 */
module Client {
  import opened Wrappers
  import opened Messages
  import Seqs
  import Subscriptions
  import CallId
  import opened Session

  /** Everything that can happen to a session. */
  datatype Input =
    | SocketOpen
    | SocketError
    | SocketClose
    | Frame(frame: seq<Value>)
    | HeartbeatTick
    | AuthRequest
    | LogoutRequest
    | CallRequest(callId: string, uri: string, args: seq<string>)
    | SubscribeRequest(uri: string)
    | UnsubscribeRequest(uri: string)
    | SubscribeForLogsRequest
    | UnsubscribeForLogsRequest
    | DisconnectRequest

  /** The state the source keeps duplicate-free: the queue and the registry. */
  predicate Valid(s: State) {
    Seqs.NoDuplicates(s.unsent) && Seqs.NoDuplicates(s.subscribes)
  }

  /**
   * Reacts to one input. No input stops an orphaned interval, and call
   * identifiers are drawn from the random stream without going back.
   */
  function Step(env: Env, s: State, input: Input): (r: Next)
    ensures r.state.orphanTimers >= s.orphanTimers
    ensures r.state.draws >= s.draws
  {
    match input
    case SocketOpen => Next(s.(wsOpen := true), [])
    case SocketError => Next(s, [])
    case SocketClose => Next(ClearConnection(s), [])
    case Frame(frame) => HandleSocketMessage(env, s, frame)
    case HeartbeatTick => TimerFired(env, s)
    case AuthRequest => Auth(env, s)
    case LogoutRequest => Logout(env, s)
    case CallRequest(callId, uri, args) => CallRemote(env, s, callId, uri, args)
    case SubscribeRequest(uri) => SubscribeTo(env, s, uri)
    case UnsubscribeRequest(uri) => UnsubscribeFrom(env, s, uri)
    case SubscribeForLogsRequest => SubscribeForLogs(env, s)
    case UnsubscribeForLogsRequest => UnsubscribeForLogs(env, s)
    case DisconnectRequest => Next(Disconnect(s), [])
  }

  /** Frames are written only while the socket is open. */
  predicate SendsOnlyWhenOpen(s: State, trace: seq<Effect>) {
    forall e :: e in trace && e.Send? ==> s.wsOpen
  }

  /** What every input preserves: a valid state stays valid, and frames are written only on an open socket. */
  predicate KeepsValid(s: State, r: Next) {
    Valid(s) ==> Valid(r.state) && SendsOnlyWhenOpen(s, r.trace)
  }

  /** The send gate keeps the queue duplicate-free, leaves the registry alone, and writes only on an open socket. */
  lemma SendMessageKeepsValid(env: Env, s: State, m: Message, isLogin: bool)
    ensures var r := SendMessage(env, s, m, isLogin);
            KeepsValid(s, r) && r.state.subscribes == s.subscribes
  {
  }

  /** So does `auth()`. */
  lemma AuthKeepsValid(env: Env, s: State)
    ensures var r := Auth(env, s);
            KeepsValid(s, r) && r.state.subscribes == s.subscribes
  {
  }

  lemma OnCallResultKeepsValid(env: Env, s: State, result: Option<Object>)
    ensures KeepsValid(s, OnCallResult(env, s, result))
  {
    if IsAuthResult(result) && !s.wsOpen {
      var r := OnCallResult(env, s, result);
      assert forall e :: e in r.trace ==> !e.Send?;
    }
  }

  lemma OnCallErrorKeepsValid(env: Env, s: State, uri: string, description: string, details: Option<Value>)
    ensures KeepsValid(s, OnCallError(env, s, uri, description, details))
  {
    AuthKeepsValid(env, s.(isAuthenticated := false, authInProgress := false));
  }

  lemma OnEventKeepsValid(env: Env, s: State, uri: string, eventData: Object)
    ensures KeepsValid(s, OnEvent(env, s, uri, eventData))
  {
  }

  /** Inbound frames keep the state valid and write only on an open socket. */
  lemma HandleSocketMessageKeepsValid(env: Env, s: State, frame: seq<Value>)
    ensures KeepsValid(s, HandleSocketMessage(env, s, frame))
  {
    match Decode(frame)
    case None =>
    case Some(m) =>
      match m
      case Welcome(sessionId, _, _) =>
        AuthKeepsValid(env, s.(sessionId := sessionId));
      case CallResult(_, result) =>
        OnCallResultKeepsValid(env, s, result);
      case CallError(_, uri, description, details) =>
        OnCallErrorKeepsValid(env, s, uri, description, details);
      case Event(uri, eventData) =>
        OnEventKeepsValid(env, s, uri, eventData);
      case Heartbeat(_) =>
      case Call(_, _, _) =>
      case Subscribe(_) =>
      case Unsubscribe(_) =>
  }

  lemma LogoutKeepsValid(env: Env, s: State)
    ensures KeepsValid(s, Logout(env, s))
  {
    SendMessageKeepsValid(env, s.(draws := s.draws + CallId.Length), LogoutCall(env, s), false);
  }

  lemma SubscribeToKeepsValid(env: Env, s: State, uri: string)
    ensures KeepsValid(s, SubscribeTo(env, s, uri))
  {
    SendMessageKeepsValid(env, s.(subscribes := Subscriptions.Update(s.subscribes, uri, true)), Subscribe(uri), false);
  }

  lemma UnsubscribeFromKeepsValid(env: Env, s: State, uri: string)
    ensures KeepsValid(s, UnsubscribeFrom(env, s, uri))
  {
    SendMessageKeepsValid(env, s.(subscribes := Subscriptions.Update(s.subscribes, uri, false)), Unsubscribe(uri), false);
  }

  /** Calls of the public subscription API keep the state valid. */
  lemma SubscriptionRequestKeepsValid(env: Env, s: State, input: Input)
    requires input.SubscribeRequest? || input.UnsubscribeRequest?
          || input.SubscribeForLogsRequest? || input.UnsubscribeForLogsRequest?
    ensures KeepsValid(s, Step(env, s, input))
  {
    match input
    case SubscribeRequest(uri) => SubscribeToKeepsValid(env, s, uri);
    case UnsubscribeRequest(uri) => UnsubscribeFromKeepsValid(env, s, uri);
    case SubscribeForLogsRequest => SubscribeToKeepsValid(env, s, BaseUri + LogsPath);
    case UnsubscribeForLogsRequest => UnsubscribeFromKeepsValid(env, s, BaseUri + LogsPath);
  }

  /** Every input keeps the queue and registry duplicate-free, and frames are written only on an open socket. */
  lemma StepKeepsValid(env: Env, s: State, input: Input)
    ensures KeepsValid(s, Step(env, s, input))
  {
    match input
    case SocketOpen =>
    case SocketError =>
    case SocketClose =>
    case Frame(frame) => HandleSocketMessageKeepsValid(env, s, frame);
    case HeartbeatTick => SendMessageKeepsValid(env, s, Heartbeat(s.heartbeatCount), false);
    case AuthRequest => AuthKeepsValid(env, s);
    case LogoutRequest => LogoutKeepsValid(env, s);
    case CallRequest(callId, uri, args) => SendMessageKeepsValid(env, s, Call(callId, uri, args), false);
    case DisconnectRequest =>
    case _ => SubscriptionRequestKeepsValid(env, s, input);
  }

  /** Reacts to a sequence of inputs, concatenating the effects. */
  function Run(env: Env, s: State, inputs: seq<Input>): (r: Next)
    ensures Valid(s) ==> Valid(r.state)
    decreases |inputs|
  {
    if inputs == [] then
      Next(s, [])
    else
      var a := Step(env, s, inputs[0]);
      StepKeepsValid(env, s, inputs[0]);
      var b := Run(env, a.state, inputs[1..]);
      Next(b.state, a.trace + b.trace)
  }

  /** Every session that starts from the constructor keeps its queue and registry duplicate-free. */
  lemma NoDuplicatesFromInit(env: Env, inputs: seq<Input>)
    ensures Valid(Run(env, Init(), inputs).state)
  {
  }
}

=== FILE: message_types.dfy ===
/**
 * The tag table of the wire protocol: every frame is a JSON array whose
 * first element is one of these integer codes.
 */
module MessageTypes {
  import opened Wrappers

  /** The eight message kinds the table names. */
  datatype Kind =
    | Welcome
    | Call
    | CallResult
    | CallError
    | Subscribe
    | Unsubscribe
    | Event
    | Heartbeat

  /** The table itself: the code of each kind. */
  function TagOf(k: Kind): int {
    match k
    case Welcome => 0
    case Call => 2
    case CallResult => 3
    case CallError => 4
    case Subscribe => 5
    case Unsubscribe => 6
    case Event => 8
    case Heartbeat => 20
  }

  /** The set of codes in use. */
  const Tags: set<int> := {0, 2, 3, 4, 5, 6, 8, 20}

  /**
   * Reads a code back as a kind. Because the codes are pairwise distinct,
   * at most one kind has a given code, so this is well defined.
   */
  function KindOfTag(t: int): (k: Option<Kind>)
    ensures k.Some? <==> t in Tags
    ensures k.Some? ==> TagOf(k.value) == t
    ensures forall kind: Kind :: TagOf(kind) == t ==> k == Some(kind)
  {
    if t == 0 then Some(Welcome)
    else if t == 2 then Some(Call)
    else if t == 3 then Some(CallResult)
    else if t == 4 then Some(CallError)
    else if t == 5 then Some(Subscribe)
    else if t == 6 then Some(Unsubscribe)
    else if t == 8 then Some(Event)
    else if t == 20 then Some(Heartbeat)
    else None
  }

  /** No two kinds share a code. */
  lemma TagsDistinct(k1: Kind, k2: Kind)
    ensures TagOf(k1) == TagOf(k2) <==> k1 == k2
  {
  }

  /** Mapping a kind to its code and back gives the same kind. */
  lemma KindRoundTrip(k: Kind)
    ensures KindOfTag(TagOf(k)) == Some(k)
  {
  }
}

=== FILE: messages.dfy ===
/**
 * Wire messages. A frame is a JSON array: a numeric tag from the
 * `MessageTypes` table followed by positional fields. `Message` is the
 * closed union of the shapes the protocol declares; `Encode` writes a
 * message as a frame and `Decode` reads a frame back.
 */
module Messages {
  import opened Wrappers
  import MessageTypes

  /** A JSON value. Numbers are modelled as integers. */
  datatype Value =
    | Null
    | Bool(b: bool)
    | Num(n: int)
    | Str(s: string)
    | Arr(items: seq<Value>)
    | Obj(fields: map<string, Value>)

  /** A JSON object. */
  type Object = map<string, Value>

  /** `obj[key]`; `None` stands for `undefined`. */
  function Field(obj: Object, key: string): Option<Value> {
    if key in obj then Some(obj[key]) else None
  }

  /** JavaScript truthiness of a possibly-undefined JSON value (`!!v`). */
  predicate Truthy(v: Option<Value>) {
    match v
    case None => false
    case Some(Null) => false
    case Some(Bool(b)) => b
    case Some(Num(n)) => n != 0
    case Some(Str(s)) => s != ""
    case Some(Arr(_)) => true
    case Some(Obj(_)) => true
  }

  /** One variant per row of the tag table (an event error is an `Event` whose payload carries `SubscribeError`). */
  datatype Message =
    | Welcome(sessionId: string, protocolVersion: Value, serverName: Value)
    | Call(callId: string, uri: string, args: seq<string>)
    | CallResult(callId: string, result: Option<Object>)
    | CallError(callId: string, uri: string, description: string, details: Option<Value>)
    | Subscribe(uri: string)
    | Unsubscribe(uri: string)
    | Event(uri: string, eventData: Object)
    | Heartbeat(counter: int)

  /** The kind, and hence the tag, each variant carries. */
  function KindOf(m: Message): MessageTypes.Kind {
    match m
    case Welcome(_, _, _) => MessageTypes.Welcome
    case Call(_, _, _) => MessageTypes.Call
    case CallResult(_, _) => MessageTypes.CallResult
    case CallError(_, _, _, _) => MessageTypes.CallError
    case Subscribe(_) => MessageTypes.Subscribe
    case Unsubscribe(_) => MessageTypes.Unsubscribe
    case Event(_, _) => MessageTypes.Event
    case Heartbeat(_) => MessageTypes.Heartbeat
  }

  /** Outbound messages: the members of `ISocketOutgoingMessage`. */
  predicate IsOutgoing(m: Message) {
    m.Call? || m.Subscribe? || m.Unsubscribe? || m.Heartbeat?
  }

  /** String arguments as JSON strings. */
  function StrValues(args: seq<string>): (vs: seq<Value>)
    ensures |vs| == |args|
    ensures forall i :: 0 <= i < |args| ==> vs[i] == Str(args[i])
  {
    if args == [] then [] else [Str(args[0])] + StrValues(args[1..])
  }

  /** Reads a run of JSON strings; fails if any element is not a string. */
  function Strings(vs: seq<Value>): Option<seq<string>> {
    if vs == [] then Some([])
    else if !vs[0].Str? then None
    else match Strings(vs[1..])
      case None => None
      case Some(rest) => Some([vs[0].s] + rest)
  }

  lemma {:induction false} StringsOfStrValues(args: seq<string>)
    ensures Strings(StrValues(args)) == Some(args)
  {
    if args != [] {
      StringsOfStrValues(args[1..]);
      var vs := StrValues(args);
      assert vs[0] == Str(args[0]) && vs[1..] == StrValues(args[1..]);
      assert [args[0]] + args[1..] == args;
    }
  }

  lemma {:induction false} StrValuesOfStrings(vs: seq<Value>)
    requires Strings(vs).Some?
    ensures StrValues(Strings(vs).value) == vs
  {
    if vs != [] {
      StrValuesOfStrings(vs[1..]);
      assert [vs[0].s] + Strings(vs[1..]).value == Strings(vs).value;
      assert Strings(vs).value[1..] == Strings(vs[1..]).value;
    }
  }

  /** The frame `JSON.stringify` would write for `m`, as a JSON array. */
  function Encode(m: Message): (frame: seq<Value>)
    ensures |frame| >= 2
    ensures frame[0] == Num(MessageTypes.TagOf(KindOf(m)))
  {
    var tag := Num(MessageTypes.TagOf(KindOf(m)));
    match m
    case Welcome(sid, version, server) => [tag, Str(sid), version, server]
    case Call(id, uri, args) => [tag, Str(id), Str(uri)] + StrValues(args)
    case CallResult(id, payload) =>
      [tag, Str(id), if payload.Some? then Obj(payload.value) else Null]
    case CallError(id, uri, desc, details) =>
      [tag, Str(id), Str(uri), Str(desc)] + (if details.Some? then [details.value] else [])
    case Subscribe(uri) => [tag, Str(uri)]
    case Unsubscribe(uri) => [tag, Str(uri)]
    case Event(uri, payload) => [tag, Str(uri), Obj(payload)]
    case Heartbeat(n) => [tag, Num(n)]
  }

  /**
   * Reads a frame by its tag. The declared positions must be present and of
   * the declared JSON type; trailing extra elements are ignored, as array
   * destructuring ignores them (a `Call` takes all of them as arguments).
   */
  function Decode(frame: seq<Value>): (r: Option<Message>)
    ensures r.Some? ==> |frame| >= 2 && frame[0] == Num(MessageTypes.TagOf(KindOf(r.value)))
  {
    if |frame| < 2 || !frame[0].Num? then None
    else
      var tag := frame[0].n;
      if tag == 0 then
        if |frame| >= 4 && frame[1].Str? then Some(Welcome(frame[1].s, frame[2], frame[3])) else None
      else if tag == 2 then
        if |frame| >= 3 && frame[1].Str? && frame[2].Str? && Strings(frame[3..]).Some? then
          Some(Call(frame[1].s, frame[2].s, Strings(frame[3..]).value))
        else None
      else if tag == 3 then
        if |frame| >= 3 && frame[1].Str? && frame[2].Obj? then Some(CallResult(frame[1].s, Some(frame[2].fields)))
        else if |frame| >= 3 && frame[1].Str? && frame[2].Null? then Some(CallResult(frame[1].s, None))
        else None
      else if tag == 4 then
        if |frame| >= 4 && frame[1].Str? && frame[2].Str? && frame[3].Str? then
          Some(CallError(frame[1].s, frame[2].s, frame[3].s, if |frame| >= 5 then Some(frame[4]) else None))
        else None
      else if tag == 5 then
        if frame[1].Str? then Some(Subscribe(frame[1].s)) else None
      else if tag == 6 then
        if frame[1].Str? then Some(Unsubscribe(frame[1].s)) else None
      else if tag == 8 then
        if |frame| >= 3 && frame[1].Str? && frame[2].Obj? then Some(Event(frame[1].s, frame[2].fields)) else None
      else if tag == 20 then
        if frame[1].Num? then Some(Heartbeat(frame[1].n)) else None
      else None
  }

  /** Wire fidelity: decoding the encoding of any message gives it back. */
  lemma DecodeEncode(m: Message)
    ensures Decode(Encode(m)) == Some(m)
  {
    if m.Call? {
      var frame := Encode(m);
      assert frame[3..] == StrValues(m.args);
      StringsOfStrValues(m.args);
    }
  }

  /** Conversely, a frame that decodes begins with the encoding of what it decodes to. */
  lemma EncodeDecode(frame: seq<Value>)
    requires Decode(frame).Some?
    ensures Encode(Decode(frame).value) <= frame
  {
    var m := Decode(frame).value;
    if m.Call? {
      StrValuesOfStrings(frame[3..]);
      assert frame == frame[..3] + frame[3..];
    }
  }

  /** The inbound frames of the scenarios decode to the expected messages. */
  lemma DecodeWelcome(sessionId: string, version: Value, server: Value)
    ensures Decode([Num(0), Str(sessionId), version, server]) == Some(Welcome(sessionId, version, server))
  {
  }

  lemma DecodeCallResult(callId: string, data: Object)
    ensures Decode([Num(3), Str(callId), Obj(data)]) == Some(CallResult(callId, Some(data)))
  {
  }

  lemma DecodeEvent(uri: string, data: Object)
    ensures Decode([Num(8), Str(uri), Obj(data)]) == Some(Event(uri, data))
  {
  }

  /** A frame with a tag outside the table decodes to nothing. */
  lemma UnknownTagUndecoded(frame: seq<Value>)
    requires |frame| > 0 && frame[0].Num? && frame[0].n !in MessageTypes.Tags
    ensures Decode(frame) == None
  {
  }
}

=== FILE: outbound_queue.dfy ===
/**
 * The outbound queue (`unsentMessage`): messages that could not be sent
 * yet, in insertion order, compared by structural equality.
 */
module OutboundQueue {
  import opened Seqs

  /**
   * `updateUnsentMessage`: appends `m` unless an equal message is queued.
   * The source compares `JSON.stringify` images; outbound messages hold
   * only strings and numbers, so that is structural equality.
   */
  function Enqueue<T(==)>(q: seq<T>, m: T): (r: seq<T>)
    ensures m in r
    ensures forall i :: 0 <= i < |r| ==> r[i] in q || r[i] == m
    ensures |q| <= |r| <= |q| + 1 && r[..|q|] == q
    ensures NoDuplicates(q) ==> NoDuplicates(r)
  {
    if m in q then q else q + [m]
  }

  /** Enqueueing a message twice is the same as enqueueing it once. */
  lemma EnqueueIdempotent<T>(q: seq<T>, m: T)
    ensures Enqueue(Enqueue(q, m), m) == Enqueue(q, m)
  {
  }

  /** Enqueueing a message that is already queued changes nothing. */
  lemma EnqueueQueued<T>(q: seq<T>, m: T)
    requires m in q
    ensures Enqueue(q, m) == q
  {
  }

  /** Enqueueing every element of `ms` in turn. */
  function EnqueueAll<T(==)>(q: seq<T>, ms: seq<T>): seq<T>
    decreases |ms|
  {
    if ms == [] then q else EnqueueAll(Enqueue(q, ms[0]), ms[1..])
  }

  /** After enqueueing `ms`, the queue holds exactly the old entries and `ms`. */
  lemma {:induction false} EnqueueAllMember<T>(q: seq<T>, ms: seq<T>)
    ensures forall x :: x in EnqueueAll(q, ms) <==> x in q || x in ms
    decreases |ms|
  {
    if ms != [] {
      EnqueueAllMember(Enqueue(q, ms[0]), ms[1..]);
      forall x
        ensures x in ms <==> x == ms[0] || x in ms[1..]
      {
        assert ms == [ms[0]] + ms[1..];
      }
    }
  }

  /** The tail of a run of distinct messages missing from `q` is missing from `q` plus its head. */
  lemma FreshTail<T>(q: seq<T>, ms: seq<T>)
    requires ms != [] && NoDuplicates(ms)
    requires forall i :: 0 <= i < |ms| ==> ms[i] !in q
    ensures NoDuplicates(ms[1..])
    ensures forall i :: 0 <= i < |ms[1..]| ==> ms[1..][i] !in q + [ms[0]]
  {
    forall i, j | 0 <= i < j < |ms[1..]|
      ensures ms[1..][i] != ms[1..][j]
    {
      assert ms[1..][i] == ms[i + 1] && ms[1..][j] == ms[j + 1];
    }
    forall i | 0 <= i < |ms[1..]|
      ensures ms[1..][i] !in q + [ms[0]]
    {
      assert ms[1..][i] == ms[i + 1] != ms[0];
    }
  }

  /**
   * Enqueueing distinct messages none of which is queued yet appends them
   * all, in their order.
   */
  lemma {:induction false} EnqueueAllFresh<T>(q: seq<T>, ms: seq<T>)
    requires NoDuplicates(ms)
    requires forall i :: 0 <= i < |ms| ==> ms[i] !in q
    ensures EnqueueAll(q, ms) == q + ms
    decreases |ms|
  {
    if ms != [] {
      calc {
        EnqueueAll(q, ms);
        EnqueueAll(Enqueue(q, ms[0]), ms[1..]);
        { assert ms[0] !in q; }
        EnqueueAll(q + [ms[0]], ms[1..]);
        { FreshTail(q, ms); EnqueueAllFresh(q + [ms[0]], ms[1..]); }
        (q + [ms[0]]) + ms[1..];
        { assert ms == [ms[0]] + ms[1..]; }
        q + ms;
      }
    }
  }

  /**
   * Whatever sequence of messages is enqueued, the queue keeps its old
   * entries in order, holds each message exactly once, and holds nothing else.
   */
  lemma {:induction false} EnqueueAllSpec<T>(q: seq<T>, ms: seq<T>)
    requires NoDuplicates(q)
    ensures NoDuplicates(EnqueueAll(q, ms))
    ensures |q| <= |EnqueueAll(q, ms)| && EnqueueAll(q, ms)[..|q|] == q
    ensures forall x :: x in EnqueueAll(q, ms) <==> x in q || x in ms
    decreases |ms|
  {
    if ms != [] {
      var q1 := Enqueue(q, ms[0]);
      EnqueueAllSpec(q1, ms[1..]);
      var r := EnqueueAll(q, ms);
      assert r == EnqueueAll(q1, ms[1..]);
      assert r[..|q|] == r[..|q1|][..|q|];
      forall x
        ensures x in r <==> x in q || x in ms
      {
        assert x in ms <==> x == ms[0] || x in ms[1..];
      }
    }
  }
}

=== FILE: seqs.dfy ===
/** Facts about sequences shared by the queue and the subscription registry. */
module Seqs {

  /** No element occurs twice. */
  predicate NoDuplicates<T(==)>(q: seq<T>) {
    forall i, j :: 0 <= i < j < |q| ==> q[i] != q[j]
  }
}

=== FILE: session.dfy ===
/**
 * The `LogService` session: connection and authentication state, the send
 * gate, the login flow, the handlers for inbound messages and the public
 * operations. Every operation is a pure transition from a `State` to a
 * `Next`: the new state plus the effects it produced, in order (frames
 * written to the socket and callback hooks invoked).
 */
module Session {
  import opened Wrappers
  import opened Messages
  import Text
  import CallId
  import OutboundQueue
  import Subscriptions
  import Seqs

  /** `baseUriUrl` and `uriList`. */
  const BaseUri: string := "http://enter.local"
  const LoginPath: string := "/login"
  const LoginByTokenPath: string := "/loginByToken"
  const LogsPath: string := "/subscription/logs/list"
  const LogoutPath: string := "/logout"

  /** Which optional callbacks of the configuration are present. */
  datatype Hooks = Hooks(
    dataReceived: bool,
    subscribeError: bool,
    error: bool,
    result: bool,
    logsReceived: bool)

  /** What the session is constructed with, plus the stream of random draws. */
  datatype Env = Env(username: string, password: string, hooks: Hooks, oracle: CallId.Oracle)

  /** One observable effect: a frame written to the socket, or a hook invoked. */
  datatype Effect =
    | Send(msg: Message)
    | DataReceivedHook(uri: string, eventData: Object)
    | SubscribeErrorHook(uri: string)
    | ErrorHook(uri: string, errorMessage: string, details: Option<Value>)
    | ResultHook(result: Object)
    | LogsReceivedHook(isInit: bool, logs: Option<Value>)

  /**
   * The fields of `LogService`. `wsOpen` is `isReadyStateWS()`.
   * `intervalHandle` is `intervalHeartbeatId !== null`; `orphanTimers`
   * counts intervals still running whose id was overwritten by a later
   * `setInterval` and so can no longer be cleared. `draws` is how many
   * random draws call identifiers have consumed.
   */
  datatype State = State(
    wsOpen: bool,
    token: string,
    isAuthenticated: bool,
    sessionId: string,
    unsent: seq<Message>,
    intervalHandle: bool,
    orphanTimers: nat,
    heartbeatCount: nat,
    subscribes: seq<string>,
    authInProgress: bool,
    draws: nat)

  /** The outcome of a transition. */
  datatype Next = Next(state: State, trace: seq<Effect>)

  /** The constructor's state. */
  function Init(): (r: State)
    ensures !r.wsOpen && !r.isAuthenticated && r.token == "" && AuthBlocked(r)
    ensures r.unsent == [] && r.subscribes == [] && r.heartbeatCount == 0
    ensures LiveTimers(r) == 0 && r.draws == 0
  {
    State(false, "", false, "", [], false, 0, 0, [], false, 0)
  }

  /** Heartbeat intervals currently running. */
  function LiveTimers(s: State): nat {
    s.orphanTimers + (if s.intervalHandle then 1 else 0)
  }

  /** `Send` effects for each message, in order. */
  function Sends(ms: seq<Message>): seq<Effect> {
    if ms == [] then [] else [Send(ms[0])] + Sends(ms[1..])
  }

  /** `Sends(ms)` holds one `Send` per message of `ms`, in the same order. */
  lemma {:induction false} SendsLength(ms: seq<Message>)
    ensures |Sends(ms)| == |ms|
    ensures forall i :: 0 <= i < |ms| ==> Sends(ms)[i] == Send(ms[i])
  {
    if ms != [] {
      SendsLength(ms[1..]);
    }
  }

  // ---------------------------------------------------------------------
  // Send gate and login

  /** `auth()` returns at once: a login is in flight or no welcome has come. */
  predicate AuthBlocked(s: State) {
    s.authInProgress || s.sessionId == ""
  }

  /** The call `auth()` issues from `s`: by token if one is held, else by password. */
  function LoginCall(env: Env, s: State): Message {
    var id := CallId.CallIdAt(env.oracle, s.draws);
    if s.token != "" then Call(id, BaseUri + LoginByTokenPath, [s.token])
    else Call(id, BaseUri + LoginPath, [env.username, env.password])
  }

  /** `s` once `auth()` has marked a login in flight and drawn a call identifier. */
  function AuthStarted(s: State): State {
    s.(authInProgress := true, draws := s.draws + CallId.Length)
  }

  /** Termination measure: once a login is in flight, `auth()` does not recurse. */
  function AuthRank(s: State): nat {
    if s.authInProgress then 0 else 1
  }

  /**
   * The outcome of passing `m` to the send gate from `s`: written with the
   * state untouched when the socket is open and the session authenticated
   * or `m` is a login; otherwise queued behind the old entries, after
   * `auth()` has written or queued a login when the session is
   * unauthenticated and a login can start.
   */
  predicate Gated(env: Env, s: State, m: Message, isLogin: bool, r: Next) {
    && (s.wsOpen && (s.isAuthenticated || isLogin) ==> r == Next(s, [Send(m)]))
    && (!(s.wsOpen && (s.isAuthenticated || isLogin)) && (s.isAuthenticated || AuthBlocked(s))
        ==> r == Next(s.(unsent := OutboundQueue.Enqueue(s.unsent, m)), []))
    && (!(s.wsOpen && (s.isAuthenticated || isLogin)) && !s.isAuthenticated && !AuthBlocked(s)
        ==> var login := LoginCall(env, s);
            r == Next(
                   AuthStarted(s).(unsent := OutboundQueue.Enqueue(
                     if s.wsOpen then s.unsent else OutboundQueue.Enqueue(s.unsent, login), m)),
                   if s.wsOpen then [Send(login)] else []))
  }

  /**
   * `sendMessage(message, isLogin)`. Transmits when the socket is open and
   * the session is authenticated or the message is part of the login;
   * otherwise triggers `auth()` if unauthenticated and queues the message.
   */
  function SendMessage(env: Env, s: State, m: Message, isLogin: bool): (r: Next)
    decreases AuthRank(s), 1
    ensures s.wsOpen && (s.isAuthenticated || isLogin) ==> r == Next(s, [Send(m)])
    ensures !(s.wsOpen && (s.isAuthenticated || isLogin)) && (s.isAuthenticated || AuthBlocked(s))
      ==> r == Next(s.(unsent := OutboundQueue.Enqueue(s.unsent, m)), [])
    ensures !(s.wsOpen && (s.isAuthenticated || isLogin)) && !s.isAuthenticated && !AuthBlocked(s)
      ==> var login := LoginCall(env, s);
          r == Next(
                 AuthStarted(s).(unsent := OutboundQueue.Enqueue(
                   if s.wsOpen then s.unsent else OutboundQueue.Enqueue(s.unsent, login), m)),
                 if s.wsOpen then [Send(login)] else [])
  {
    if s.wsOpen && ((s.isAuthenticated && !isLogin) || isLogin) then
      Next(s, [Send(m)])
    else
      var a := if !s.isAuthenticated then Auth(env, s) else Next(s, []);
      Next(a.state.(unsent := OutboundQueue.Enqueue(a.state.unsent, m)), a.trace)
  }

  /**
   * `auth()`: unless blocked, marks a login in flight and passes the login
   * call to the send gate as part of the login, so it is written at once
   * when the socket is open and queued otherwise.
   */
  function Auth(env: Env, s: State): (r: Next)
    decreases AuthRank(s), 0
    ensures AuthBlocked(s) ==> r == Next(s, [])
    ensures !AuthBlocked(s) && s.wsOpen ==> r == Next(AuthStarted(s), [Send(LoginCall(env, s))])
    ensures !AuthBlocked(s) && !s.wsOpen
      ==> r == Next(AuthStarted(s).(unsent := OutboundQueue.Enqueue(s.unsent, LoginCall(env, s))), [])
  {
    if s.authInProgress || s.sessionId == "" then
      Next(s, [])
    else
      SendMessage(env, AuthStarted(s), LoginCall(env, s), true)
  }

  // ---------------------------------------------------------------------
  // Inbound handlers

  /** `onWelcome`: records the session identifier, then calls `auth()`. */
  function OnWelcome(env: Env, s: State, sessionId: string): (r: Next)
    ensures r.state.sessionId == sessionId
    ensures r.state.token == s.token && r.state.isAuthenticated == s.isAuthenticated
    ensures r.state.subscribes == s.subscribes && r.state.wsOpen == s.wsOpen
    ensures r.state.heartbeatCount == s.heartbeatCount
    ensures r.state.intervalHandle == s.intervalHandle && r.state.orphanTimers == s.orphanTimers
    ensures r.state.draws == s.draws + (if s.authInProgress || sessionId == "" then 0 else CallId.Length)
    ensures s.authInProgress || sessionId == "" ==> r == Next(s.(sessionId := sessionId), [])
    ensures !s.authInProgress && sessionId != "" ==> r.state.authInProgress
    ensures !s.authInProgress && sessionId != "" && s.wsOpen
      ==> r.trace == [Send(LoginCall(env, s))] && r.state.unsent == s.unsent
    ensures !s.authInProgress && sessionId != "" && !s.wsOpen
      ==> r.trace == [] && r.state.unsent == OutboundQueue.Enqueue(s.unsent, LoginCall(env, s))
  {
    Auth(env, s.(sessionId := sessionId))
  }

  /** `setIntervalHeartbeat`: starts a new interval, overwriting any stored id. */
  function SetInterval(s: State): (r: State)
    ensures r.intervalHandle && LiveTimers(r) == LiveTimers(s) + 1
    ensures r.(intervalHandle := s.intervalHandle, orphanTimers := s.orphanTimers) == s
  {
    s.(orphanTimers := LiveTimers(s), intervalHandle := true)
  }

  /** `clearIntervalHeartbeat`: stops the interval whose id is stored, if any. */
  function ClearInterval(s: State): (r: State)
    ensures !r.intervalHandle && r.orphanTimers == s.orphanTimers
    ensures LiveTimers(r) == LiveTimers(s) - (if s.intervalHandle then 1 else 0)
    ensures r.(intervalHandle := s.intervalHandle) == s
  {
    s.(intervalHandle := false)
  }

  /**
   * The `forEach` of `onAfterAuth`: passes each of `ms`, in order, to the
   * send gate. The session is authenticated and every message is already
   * queued, so each is written if the socket is open and the queue stays
   * as it was (the `slice` in the loop removes nothing).
   */
  function Flush(env: Env, s: State, ms: seq<Message>): (r: Next)
    requires s.isAuthenticated
    requires forall i :: 0 <= i < |ms| ==> ms[i] in s.unsent
    ensures r == Next(s, if s.wsOpen then Sends(ms) else [])
    decreases |ms|
  {
    if ms == [] then
      Next(s, [])
    else
      var a := SendMessage(env, s, ms[0], false);
      var b := Flush(env, a.state, ms[1..]);
      Next(b.state, a.trace + b.trace)
  }

  /** `onAfterAuth`: with a non-empty queue, re-sends it and starts the heartbeat. */
  function OnAfterAuth(env: Env, s: State): (r: Next)
    ensures !(s.isAuthenticated && |s.unsent| > 0) ==> r == Next(s, [])
    ensures s.isAuthenticated && |s.unsent| > 0
      ==> r.state == SetInterval(s) && r.trace == (if s.wsOpen then Sends(s.unsent) else [])
  {
    if s.isAuthenticated && |s.unsent| > 0 then
      var f := Flush(env, s, s.unsent);
      Next(SetInterval(f.state), f.trace)
    else
      Next(s, [])
  }

  /** A call result is taken as a successful login when its payload has a `Token` key. */
  predicate IsAuthResult(result: Option<Object>) {
    result.Some? && "Token" in result.value
  }

  /** The token a login result carries: its `Token` if that is a string, else `''`. */
  function TokenOf(data: Object): string {
    match Field(data, "Token")
    case Some(Str(t)) => t
    case _ => ""
  }

  /**
   * `onCallResult`: a login result stores the token, marks the session
   * authenticated, runs `onAfterAuth` and then the result hook; any other
   * result changes nothing.
   */
  function OnCallResult(env: Env, s: State, result: Option<Object>): (r: Next)
    ensures !IsAuthResult(result) ==> r == Next(s, [])
    ensures IsAuthResult(result) ==>
      && r.state.token == TokenOf(result.value)
      && r.state.isAuthenticated && !r.state.authInProgress
      && r.state.unsent == s.unsent && r.state.subscribes == s.subscribes
      && r.state.sessionId == s.sessionId && r.state.wsOpen == s.wsOpen
      && r.state.heartbeatCount == s.heartbeatCount && r.state.draws == s.draws
      && LiveTimers(r.state) == LiveTimers(s) + (if |s.unsent| > 0 then 1 else 0)
      && r.state.intervalHandle == (s.intervalHandle || |s.unsent| > 0)
      && r.trace == (if s.wsOpen then Sends(s.unsent) else [])
                    + (if env.hooks.result then [ResultHook(result.value)] else [])
  {
    if IsAuthResult(result) then
      var data := result.value;
      var loggedIn := s.(token := TokenOf(data), isAuthenticated := true, authInProgress := false);
      var a := OnAfterAuth(env, loggedIn);
      assert a.state == if |s.unsent| > 0 then SetInterval(loggedIn) else loggedIn;
      Next(a.state, a.trace + (if env.hooks.result then [ResultHook(data)] else []))
    else
      Next(s, [])
  }

  /** `errorUri.toLowerCase().includes('login')`. */
  predicate IsLoginRelated(uri: string) {
    Text.Includes(Text.ToLower(uri), "login")
  }

  /**
   * `onCallError`: a login-related failure clears the authenticated and
   * in-flight flags (keeping the token) and calls `auth()` again; the error
   * hook sees every call error.
   */
  function OnCallError(env: Env, s: State, uri: string, description: string, details: Option<Value>): (r: Next)
    ensures !IsLoginRelated(uri) ==> r.state == s
    ensures IsLoginRelated(uri) ==>
      && !r.state.isAuthenticated && r.state.token == s.token
      && r.state.authInProgress == (s.sessionId != "")
      && r.state.subscribes == s.subscribes && r.state.sessionId == s.sessionId
      && r.state.wsOpen == s.wsOpen && r.state.heartbeatCount == s.heartbeatCount
      && r.state.intervalHandle == s.intervalHandle && r.state.orphanTimers == s.orphanTimers
      && r.state.draws == s.draws + (if s.sessionId != "" then CallId.Length else 0)
      && r.state.unsent == (if s.sessionId != "" && !s.wsOpen
                            then OutboundQueue.Enqueue(s.unsent, LoginCall(env, s)) else s.unsent)
    ensures var login := if IsLoginRelated(uri) && s.sessionId != "" && s.wsOpen
                         then [Send(LoginCall(env, s))] else [];
            r.trace == login + (if env.hooks.error then [ErrorHook(uri, description, details)] else [])
  {
    var a := if !IsLoginRelated(uri) then Next(s, [])
             else Auth(env, s.(isAuthenticated := false, authInProgress := false));
    Next(a.state, a.trace + (if env.hooks.error then [ErrorHook(uri, description, details)] else []))
  }

  /** The logs topic, matched anywhere in an event's URI. */
  predicate IsLogsTopic(uri: string) {
    Text.Includes(uri, LogsPath)
  }

  /**
   * `onEvent`: a truthy `SubscribeError` deactivates the URI and reports it;
   * any other event goes to the data hook and, on the logs topic, to the
   * logs hook with `isInit` meaning `Action === 3`.
   */
  function OnEvent(env: Env, s: State, uri: string, eventData: Object): (r: Next)
    ensures r.state == s.(subscribes := r.state.subscribes)
    ensures Truthy(Field(eventData, "SubscribeError")) ==>
      && (Seqs.NoDuplicates(s.subscribes) ==> uri !in r.state.subscribes)
      && (Seqs.NoDuplicates(s.subscribes) ==> Seqs.NoDuplicates(r.state.subscribes))
      && (forall u :: u != uri ==> (u in r.state.subscribes <==> u in s.subscribes))
      && r.trace == (if env.hooks.subscribeError then [SubscribeErrorHook(uri)] else [])
    ensures !Truthy(Field(eventData, "SubscribeError")) ==>
      && r.state == s
      && r.trace == (if env.hooks.dataReceived then [DataReceivedHook(uri, eventData)] else [])
                    + (if IsLogsTopic(uri) && env.hooks.logsReceived
                       then [LogsReceivedHook(Field(eventData, "Action") == Some(Num(3)), Field(eventData, "Items"))]
                       else [])
  {
    if Truthy(Field(eventData, "SubscribeError")) then
      Next(s.(subscribes := Subscriptions.Update(s.subscribes, uri, false)),
           if env.hooks.subscribeError then [SubscribeErrorHook(uri)] else [])
    else
      var data := if env.hooks.dataReceived then [DataReceivedHook(uri, eventData)] else [];
      var logs := if IsLogsTopic(uri) && env.hooks.logsReceived
                  then [LogsReceivedHook(Field(eventData, "Action") == Some(Num(3)), Field(eventData, "Items"))]
                  else [];
      Next(s, data + logs)
  }

  /** `onHeartbeat`: counts an inbound heartbeat; its payload is ignored. */
  function OnHeartbeat(s: State): (r: State)
    ensures r.heartbeatCount == s.heartbeatCount + 1
    ensures r.(heartbeatCount := s.heartbeatCount) == s
  {
    s.(heartbeatCount := s.heartbeatCount + 1)
  }

  /**
   * `handleSocketMessage`: routes a decoded frame on its tag. Frames with an
   * outbound-only or unknown tag, and frames that do not decode, are ignored.
   */
  function HandleSocketMessage(env: Env, s: State, frame: seq<Value>): (r: Next)
    ensures r.state.orphanTimers >= s.orphanTimers && r.state.draws >= s.draws
    ensures Decode(frame).None? ==> r == Next(s, [])
    ensures Decode(frame).Some? && IsOutgoing(Decode(frame).value) && !Decode(frame).value.Heartbeat?
      ==> r == Next(s, [])
  {
    match Decode(frame)
    case None => Next(s, [])
    case Some(m) =>
      match m
      case Welcome(sessionId, _, _) => OnWelcome(env, s, sessionId)
      case CallResult(_, result) => OnCallResult(env, s, result)
      case CallError(_, uri, description, details) => OnCallError(env, s, uri, description, details)
      case Event(uri, eventData) => OnEvent(env, s, uri, eventData)
      case Heartbeat(_) => Next(OnHeartbeat(s), [])
      case Call(_, _, _) => Next(s, [])
      case Subscribe(_) => Next(s, [])
      case Unsubscribe(_) => Next(s, [])
  }

  // ---------------------------------------------------------------------
  // Heartbeat, teardown and public operations

  /** `heartbeat()`: passes `[20, heartbeatCount]` to the send gate, leaving the count alone. */
  function SendHeartbeat(env: Env, s: State): (r: Next)
    ensures r.state.heartbeatCount == s.heartbeatCount
    ensures s.wsOpen && s.isAuthenticated ==> r == Next(s, [Send(Heartbeat(s.heartbeatCount))])
    ensures !(s.wsOpen && s.isAuthenticated) ==> Heartbeat(s.heartbeatCount) in r.state.unsent
    ensures Gated(env, s, Heartbeat(s.heartbeatCount), false, r)
  {
    SendMessage(env, s, Heartbeat(s.heartbeatCount), false)
  }

  /**
   * One tick of one running heartbeat interval. The heartbeat goes through
   * the send gate, so on an unauthenticated session the tick queues it and
   * starts a login.
   */
  function TimerFired(env: Env, s: State): (r: Next)
    ensures LiveTimers(s) == 0 ==> r == Next(s, [])
    ensures LiveTimers(s) > 0 ==>
      && r.state.heartbeatCount == s.heartbeatCount && r.state.wsOpen == s.wsOpen
      && r.state.intervalHandle == s.intervalHandle && r.state.orphanTimers == s.orphanTimers
    ensures LiveTimers(s) > 0 && s.wsOpen && s.isAuthenticated
      ==> r.trace == [Send(Heartbeat(s.heartbeatCount))] && r.state == s
    ensures LiveTimers(s) > 0 && !(s.wsOpen && s.isAuthenticated)
      ==> Heartbeat(s.heartbeatCount) in r.state.unsent
    ensures LiveTimers(s) > 0 && !s.isAuthenticated && !AuthBlocked(s) ==>
      && r.state.authInProgress && r.state.draws == s.draws + CallId.Length
      && r.trace == (if s.wsOpen then [Send(LoginCall(env, s))] else [])
      && (!s.wsOpen ==> LoginCall(env, s) in r.state.unsent)
    ensures LiveTimers(s) > 0 && !(s.wsOpen && s.isAuthenticated) && (s.isAuthenticated || AuthBlocked(s))
      ==> r.trace == [] && r.state.draws == s.draws
    ensures LiveTimers(s) > 0 ==> Gated(env, s, Heartbeat(s.heartbeatCount), false, r)
  {
    if LiveTimers(s) > 0 then SendHeartbeat(env, s) else Next(s, [])
  }

  /**
   * `clearConnection` (run by `handleSocketClose`): back to the
   * constructor's values, except that the queue, the registry, the random
   * stream and any orphaned interval survive.
   */
  function ClearConnection(s: State): (r: State)
    ensures r == Init().(unsent := s.unsent, subscribes := s.subscribes,
                         orphanTimers := s.orphanTimers, draws := s.draws)
    ensures LiveTimers(r) == s.orphanTimers
  {
    ClearInterval(s.(wsOpen := false, isAuthenticated := false, token := "", sessionId := "",
                     authInProgress := false, heartbeatCount := 0))
  }

  /** `disconnect()`: empties the queue and the registry, then clears the connection. */
  function Disconnect(s: State): (r: State)
    ensures r == Init().(orphanTimers := s.orphanTimers, draws := s.draws)
  {
    ClearConnection(s.(unsent := [], subscribes := []))
  }

  /** The call `logout()` issues from `s`. */
  function LogoutCall(env: Env, s: State): Message {
    Call(CallId.CallIdAt(env.oracle, s.draws), BaseUri + LogoutPath, [])
  }

  /**
   * `logout()`: when authenticated, passes a logout call to the send gate
   * and then forgets the token and the authentication, without waiting.
   */
  function Logout(env: Env, s: State): (r: Next)
    ensures !s.isAuthenticated ==> r == Next(s, [])
    ensures s.isAuthenticated ==>
      && !r.state.isAuthenticated && r.state.token == ""
      && r.state.sessionId == s.sessionId && r.state.subscribes == s.subscribes
      && r.state.authInProgress == s.authInProgress
      && r.state.wsOpen == s.wsOpen && r.state.heartbeatCount == s.heartbeatCount
      && r.state.intervalHandle == s.intervalHandle && r.state.orphanTimers == s.orphanTimers
      && r.state.draws == s.draws + CallId.Length
      && (s.wsOpen ==> r.trace == [Send(LogoutCall(env, s))] && r.state.unsent == s.unsent)
      && (!s.wsOpen ==> r.trace == [] && r.state.unsent == OutboundQueue.Enqueue(s.unsent, LogoutCall(env, s)))
  {
    if s.isAuthenticated then
      var a := SendMessage(env, s.(draws := s.draws + CallId.Length), LogoutCall(env, s), false);
      Next(a.state.(token := "", isAuthenticated := false), a.trace)
    else
      Next(s, [])
  }

  /** `call(message)`: the message goes through the send gate. */
  function CallRemote(env: Env, s: State, callId: string, uri: string, args: seq<string>): (r: Next)
    ensures r.state.orphanTimers == s.orphanTimers && r.state.intervalHandle == s.intervalHandle
    ensures r.state.draws >= s.draws
    ensures var m := Call(callId, uri, args);
            (s.wsOpen && s.isAuthenticated ==> r == Next(s, [Send(m)]))
            && (!(s.wsOpen && s.isAuthenticated) ==> m in r.state.unsent)
    ensures Gated(env, s, Call(callId, uri, args), false, r)
  {
    SendMessage(env, s, Call(callId, uri, args), false)
  }

  /**
   * `subscribe([5, uri])`: marks the URI active, then passes the message to
   * the send gate whether or not it was already active.
   */
  function SubscribeTo(env: Env, s: State, uri: string): (r: Next)
    ensures r.state.orphanTimers == s.orphanTimers && r.state.intervalHandle == s.intervalHandle
    ensures r.state.draws >= s.draws
    ensures uri in r.state.subscribes
    ensures forall u :: u != uri ==> (u in r.state.subscribes <==> u in s.subscribes)
    ensures s.wsOpen && s.isAuthenticated
      ==> r.trace == [Send(Subscribe(uri))] && r.state.unsent == s.unsent
    ensures !(s.wsOpen && s.isAuthenticated) ==> Subscribe(uri) in r.state.unsent
    ensures Gated(env, s.(subscribes := Subscriptions.Update(s.subscribes, uri, true)), Subscribe(uri), false, r)
  {
    SendMessage(env, s.(subscribes := Subscriptions.Update(s.subscribes, uri, true)), Subscribe(uri), false)
  }

  /**
   * `unsubscribe([6, uri])`: marks the URI inactive, then passes the message
   * to the send gate whether or not it was active.
   */
  function UnsubscribeFrom(env: Env, s: State, uri: string): (r: Next)
    ensures r.state.orphanTimers == s.orphanTimers && r.state.intervalHandle == s.intervalHandle
    ensures r.state.draws >= s.draws
    ensures Seqs.NoDuplicates(s.subscribes) ==> uri !in r.state.subscribes
    ensures forall u :: u != uri ==> (u in r.state.subscribes <==> u in s.subscribes)
    ensures s.wsOpen && s.isAuthenticated
      ==> r.trace == [Send(Unsubscribe(uri))] && r.state.unsent == s.unsent
    ensures !(s.wsOpen && s.isAuthenticated) ==> Unsubscribe(uri) in r.state.unsent
    ensures Gated(env, s.(subscribes := Subscriptions.Update(s.subscribes, uri, false)), Unsubscribe(uri), false, r)
  {
    SendMessage(env, s.(subscribes := Subscriptions.Update(s.subscribes, uri, false)), Unsubscribe(uri), false)
  }

  /** `subscribeForLogs()`: `subscribe` on the logs topic under the base URI. */
  function SubscribeForLogs(env: Env, s: State): (r: Next)
    ensures r.state.orphanTimers == s.orphanTimers && r.state.intervalHandle == s.intervalHandle
    ensures r.state.draws >= s.draws
    ensures BaseUri + LogsPath in r.state.subscribes
    ensures forall u :: u != BaseUri + LogsPath ==> (u in r.state.subscribes <==> u in s.subscribes)
    ensures Gated(env, s.(subscribes := Subscriptions.Update(s.subscribes, BaseUri + LogsPath, true)),
                  Subscribe(BaseUri + LogsPath), false, r)
  {
    SubscribeTo(env, s, BaseUri + LogsPath)
  }

  /** `unsubscribeForLogs()`: `unsubscribe` on the logs topic under the base URI. */
  function UnsubscribeForLogs(env: Env, s: State): (r: Next)
    ensures r.state.orphanTimers == s.orphanTimers && r.state.intervalHandle == s.intervalHandle
    ensures r.state.draws >= s.draws
    ensures Seqs.NoDuplicates(s.subscribes) ==> BaseUri + LogsPath !in r.state.subscribes
    ensures forall u :: u != BaseUri + LogsPath ==> (u in r.state.subscribes <==> u in s.subscribes)
    ensures Gated(env, s.(subscribes := Subscriptions.Update(s.subscribes, BaseUri + LogsPath, false)),
                  Unsubscribe(BaseUri + LogsPath), false, r)
  {
    UnsubscribeFrom(env, s, BaseUri + LogsPath)
  }
}

=== FILE: session_properties.dfy ===
/** Properties of the session that relate several operations or fix concrete frames. */
module SessionProperties {
  import opened Wrappers
  import opened Messages
  import MessageTypes
  import Text
  import CallId
  import OutboundQueue
  import Seqs
  import opened Session

  // ---------------------------------------------------------------------
  // Send gate and login

  /**
   * A message is written at once, leaving the state alone, exactly when the
   * socket is open and the session is authenticated or the message is part
   * of the login. Otherwise it ends up queued, behind everything queued before.
   */
  lemma SendGateIff(env: Env, s: State, m: Message, isLogin: bool)
    ensures var r := SendMessage(env, s, m, isLogin);
            r == Next(s, [Send(m)]) <==> s.wsOpen && (s.isAuthenticated || isLogin)
    ensures var r := SendMessage(env, s, m, isLogin);
            !(s.wsOpen && (s.isAuthenticated || isLogin))
            ==> m in r.state.unsent && |s.unsent| <= |r.state.unsent| && r.state.unsent[..|s.unsent|] == s.unsent
  {
    var r := SendMessage(env, s, m, isLogin);
    if !(s.wsOpen && (s.isAuthenticated || isLogin)) && !s.isAuthenticated && !AuthBlocked(s) {
      assert r.state.authInProgress != s.authInProgress;
      var q := if s.wsOpen then s.unsent else OutboundQueue.Enqueue(s.unsent, LoginCall(env, s));
      assert q[..|s.unsent|] == s.unsent;
      assert r.state.unsent[..|q|][..|s.unsent|] == r.state.unsent[..|s.unsent|];
    }
  }

  /** At most one login is in flight: calling `auth()` again right after it does nothing. */
  lemma AuthTwiceIsAuthOnce(env: Env, s: State)
    ensures var a := Auth(env, s);
            Auth(env, a.state) == Next(a.state, [])
  {
  }

  /**
   * The login call carries a fresh 16-character alphanumeric identifier, and
   * its frame is the array the source writes literally: by token when one
   * is held, else by username and password.
   */
  lemma LoginCallFrame(env: Env, s: State)
    ensures var m := LoginCall(env, s);
            && m.Call? && |m.callId| == 16
            && (forall i :: 0 <= i < |m.callId| ==> CallId.IsAlphanumeric(m.callId[i]))
            && (s.token != "" ==> Encode(m) == [Num(2), Str(m.callId), Str("http://enter.local/loginByToken"), Str(s.token)])
            && (s.token == "" ==> Encode(m) == [Num(2), Str(m.callId), Str("http://enter.local/login"), Str(env.username), Str(env.password)])
  {
    var m := LoginCall(env, s);
    assert BaseUri + LoginByTokenPath == "http://enter.local/loginByToken";
    assert BaseUri + LoginPath == "http://enter.local/login";
  }

  /** The other literal frames of the session agree with the tag table. */
  lemma HardCodedFrames(env: Env, s: State, uri: string)
    ensures Encode(LogoutCall(env, s)) == [Num(2), Str(LogoutCall(env, s).callId), Str("http://enter.local/logout")]
    ensures Encode(Heartbeat(s.heartbeatCount)) == [Num(20), Num(s.heartbeatCount)]
    ensures Encode(Subscribe(uri)) == [Num(5), Str(uri)]
    ensures Encode(Unsubscribe(uri)) == [Num(6), Str(uri)]
    ensures MessageTypes.TagOf(MessageTypes.Call) == 2 && MessageTypes.TagOf(MessageTypes.Subscribe) == 5
    ensures MessageTypes.TagOf(MessageTypes.Unsubscribe) == 6 && MessageTypes.TagOf(MessageTypes.Heartbeat) == 20
  {
    assert BaseUri + LogoutPath == "http://enter.local/logout";
    assert StrValues([]) == [];
  }

  /** A failed password login counts as login-related. */
  lemma LoginUriIsLoginRelated()
    ensures IsLoginRelated(BaseUri + LoginPath)
  {
    var u := Text.ToLower(BaseUri + LoginPath);
    assert u[19..24] == "login";
    Text.IncludesAt(u, "login", 19);
  }

  /** A failed token login counts as login-related. */
  lemma LoginByTokenUriIsLoginRelated()
    ensures IsLoginRelated(BaseUri + LoginByTokenPath)
  {
    var u := Text.ToLower(BaseUri + LoginByTokenPath);
    assert u[19..24] == "login";
    Text.IncludesAt(u, "login", 19);
  }

  /** The test ignores case. */
  lemma UpperCaseLoginIsLoginRelated()
    ensures IsLoginRelated("/LOGIN")
  {
    assert Text.ToLower("/LOGIN") == "/login";
    Text.IncludesAt("/login", "login", 1);
  }

  /** Whether an error URI is login-related does not depend on its case. */
  lemma LoginRelatedIgnoresCase(uri: string)
    ensures IsLoginRelated(Text.ToLower(uri)) <==> IsLoginRelated(uri)
  {
    Text.ToLowerIdempotent(uri);
  }

  /**
   * `logout()` leaves the heartbeat interval running, so its next tick on
   * the open socket passes a heartbeat to the send gate, which, the session
   * no longer being authenticated, logs in again with the password and
   * queues the heartbeat.
   */
  lemma LogoutThenTickLogsInAgain(env: Env, s: State)
    requires s.wsOpen && s.isAuthenticated && !s.authInProgress && s.sessionId != ""
    requires LiveTimers(s) > 0
    ensures var l := Logout(env, s);
            var t := TimerFired(env, l.state);
            && l.trace == [Send(LogoutCall(env, s))]
            && t.trace == [Send(LoginCall(env, l.state))]
            && Encode(LoginCall(env, l.state))[2..] == [Str("http://enter.local/login"), Str(env.username), Str(env.password)]
            && t.state.authInProgress
            && Heartbeat(s.heartbeatCount) in t.state.unsent
  {
    var l := Logout(env, s);
    assert l.state.token == "";
    assert BaseUri + LoginPath == "http://enter.local/login";
  }

  // ---------------------------------------------------------------------
  // Login results: the queue is re-sent, not drained

  /**
   * A second login result re-sends the whole queue again, because the first
   * one left it in place; and, the queue being non-empty, it starts a second
   * heartbeat interval whose id overwrites the first, so closing the socket
   * then leaves one interval running.
   */
  lemma SecondLoginResendsAndOrphansTimer(env: Env, s: State, first: Object, second: Object)
    requires "Token" in first && "Token" in second
    requires |s.unsent| > 0 && s.wsOpen
    ensures var a := OnCallResult(env, s, Some(first));
            var b := OnCallResult(env, a.state, Some(second));
            && |a.trace| >= |s.unsent| && a.trace[..|s.unsent|] == Sends(s.unsent)
            && |b.trace| >= |s.unsent| && b.trace[..|s.unsent|] == Sends(s.unsent)
            && LiveTimers(b.state) == LiveTimers(s) + 2
            && LiveTimers(ClearConnection(b.state)) >= 1
  {
    var a := OnCallResult(env, s, Some(first));
    var b := OnCallResult(env, a.state, Some(second));
    SendsLength(s.unsent);
    assert a.trace[..|s.unsent|] == Sends(s.unsent);
    assert b.trace[..|s.unsent|] == Sends(s.unsent);
  }

  // ---------------------------------------------------------------------
  // Dispatcher

  /** Inbound tags route to their handlers: 0, 3, 4, 8 and 20. */
  lemma DispatchRoutes(env: Env, s: State, frame: seq<Value>)
    requires Decode(frame).Some?
    ensures var m := Decode(frame).value;
            var r := HandleSocketMessage(env, s, frame);
            && (frame[0] == Num(0) ==> m.Welcome? && r == OnWelcome(env, s, m.sessionId))
            && (frame[0] == Num(3) ==> m.CallResult? && r == OnCallResult(env, s, m.result))
            && (frame[0] == Num(4) ==> m.CallError? && r == OnCallError(env, s, m.uri, m.description, m.details))
            && (frame[0] == Num(8) ==> m.Event? && r == OnEvent(env, s, m.uri, m.eventData))
            && (frame[0] == Num(20) ==> m.Heartbeat? && r == Next(OnHeartbeat(s), []))
  {
  }

  /** Any other tag, outbound-only 2, 5 and 6 included, changes nothing and has no effect. */
  lemma DispatchIgnoresOtherTags(env: Env, s: State, frame: seq<Value>)
    requires |frame| > 0 && frame[0].Num? && frame[0].n !in {0, 3, 4, 8, 20}
    ensures HandleSocketMessage(env, s, frame) == Next(s, [])
  {
    if Decode(frame).Some? {
      var k := KindOf(Decode(frame).value);
      assert MessageTypes.TagOf(k) == frame[0].n;
    }
  }

  /** An inbound heartbeat adds exactly one to the counter, whatever it carries. */
  lemma InboundHeartbeatCounts(env: Env, s: State, n: int)
    ensures var r := HandleSocketMessage(env, s, [Num(20), Num(n)]);
            r.state.heartbeatCount == s.heartbeatCount + 1 && r.trace == []
  {
  }

  // ---------------------------------------------------------------------
  // Teardown

  /** Closing twice is closing once: the close event after `disconnect()` changes nothing more. */
  lemma ClearConnectionIdempotent(s: State)
    ensures ClearConnection(ClearConnection(s)) == ClearConnection(s)
    ensures ClearConnection(Disconnect(s)) == Disconnect(s)
  {
  }

  /** A socket close keeps the queue and the registry; `disconnect()` empties both. */
  lemma CloseKeepsQueueDisconnectDoesNot(s: State)
    ensures ClearConnection(s).unsent == s.unsent && ClearConnection(s).subscribes == s.subscribes
    ensures Disconnect(s).unsent == [] && Disconnect(s).subscribes == []
    ensures !ClearConnection(s).isAuthenticated && ClearConnection(s).token == ""
    ensures ClearConnection(s).sessionId == "" && ClearConnection(s).heartbeatCount == 0
  {
  }

  /** After a close no login can start until a new welcome arrives. */
  lemma NoAuthAfterClose(env: Env, s: State)
    ensures Auth(env, ClearConnection(s)) == Next(ClearConnection(s), [])
  {
  }

  // ---------------------------------------------------------------------
  // Calls issued before the login completes

  /** The arguments of one `call(message)`. */
  datatype Request = Request(callId: string, uri: string, args: seq<string>)

  /** The call messages of `reqs`, in order. */
  function CallsOf(reqs: seq<Request>): (ms: seq<Message>)
    ensures |ms| == |reqs|
    ensures forall i :: 0 <= i < |reqs| ==> ms[i] == Call(reqs[i].callId, reqs[i].uri, reqs[i].args)
  {
    if reqs == [] then [] else [Call(reqs[0].callId, reqs[0].uri, reqs[0].args)] + CallsOf(reqs[1..])
  }

  /** `call` applied to each request in turn, concatenating the effects. */
  function CallAll(env: Env, s: State, reqs: seq<Request>): Next
    decreases |reqs|
  {
    if reqs == [] then
      Next(s, [])
    else
      var a := CallRemote(env, s, reqs[0].callId, reqs[0].uri, reqs[0].args);
      var b := CallAll(env, a.state, reqs[1..]);
      Next(b.state, a.trace + b.trace)
  }

  /**
   * While a login is in flight (or no welcome has come), calls write
   * nothing and start nothing: they join the queue as the deduplicating
   * `EnqueueAll`, so each is queued exactly once behind the old entries.
   */
  lemma {:induction false} CallsWhileUnauthenticatedAreQueued(env: Env, s: State, reqs: seq<Request>)
    requires !s.isAuthenticated && AuthBlocked(s)
    ensures CallAll(env, s, reqs) == Next(s.(unsent := OutboundQueue.EnqueueAll(s.unsent, CallsOf(reqs))), [])
    decreases |reqs|
  {
    if reqs != [] {
      var a := CallRemote(env, s, reqs[0].callId, reqs[0].uri, reqs[0].args);
      CallsWhileUnauthenticatedAreQueued(env, a.state, reqs[1..]);
      assert CallsOf(reqs)[1..] == CallsOf(reqs[1..]);
    }
  }

  /**
   * Once the login result arrives on an open socket, the calls queued
   * while unauthenticated are written in their original order behind the
   * older entries, before the result hook runs; distinct fresh calls are
   * each written exactly once.
   */
  lemma CallsSentInOrderAfterLogin(env: Env, s: State, reqs: seq<Request>, data: Object)
    requires !s.isAuthenticated && AuthBlocked(s) && s.wsOpen && "Token" in data
    ensures var q := CallAll(env, s, reqs).state;
            var r := OnCallResult(env, q, Some(data));
            var flushed := OutboundQueue.EnqueueAll(s.unsent, CallsOf(reqs));
            && r.trace == Sends(flushed) + (if env.hooks.result then [ResultHook(data)] else [])
            && (Seqs.NoDuplicates(s.unsent) ==> Seqs.NoDuplicates(flushed))
            && (forall i :: 0 <= i < |reqs| ==> CallsOf(reqs)[i] in flushed)
            && (Seqs.NoDuplicates(CallsOf(reqs)) && (forall i :: 0 <= i < |reqs| ==> CallsOf(reqs)[i] !in s.unsent)
                ==> flushed == s.unsent + CallsOf(reqs))
  {
    CallsWhileUnauthenticatedAreQueued(env, s, reqs);
    var ms := CallsOf(reqs);
    if Seqs.NoDuplicates(s.unsent) {
      OutboundQueue.EnqueueAllSpec(s.unsent, ms);
    }
    OutboundQueue.EnqueueAllMember(s.unsent, ms);
    if Seqs.NoDuplicates(ms) && (forall i :: 0 <= i < |reqs| ==> ms[i] !in s.unsent) {
      OutboundQueue.EnqueueAllFresh(s.unsent, ms);
    }
  }

  // ---------------------------------------------------------------------
  // Scenarios

  /** The configuration used by the scenarios: user `user`, password `pass`, every hook present. */
  function ScenarioEnv(oracle: CallId.Oracle): Env {
    Env("user", "pass", Hooks(true, true, true, true, true), oracle)
  }

  /** A welcome on an open socket with no token sends the password login. */
  lemma WelcomeScenario(oracle: CallId.Oracle)
    ensures var s := Init().(wsOpen := true);
            var r := HandleSocketMessage(ScenarioEnv(oracle), s, [Num(0), Str("sess1"), Str("1.0"), Str("srv")]);
            && r.state.sessionId == "sess1" && r.state.authInProgress
            && r.trace == [Send(Call(CallId.CallIdAt(oracle, 0), "http://enter.local/login", ["user", "pass"]))]
  {
    DecodeWelcome("sess1", Str("1.0"), Str("srv"));
    assert BaseUri + LoginPath == "http://enter.local/login";
  }

  /** A token result while logging in stores the token and flushes the queue in order. */
  lemma TokenResultScenario(oracle: CallId.Oracle, queued: seq<Message>)
    requires |queued| > 0
    ensures var s := Init().(wsOpen := true, sessionId := "sess1", authInProgress := true, unsent := queued);
            var r := HandleSocketMessage(ScenarioEnv(oracle), s, [Num(3), Str("id"), Obj(map["Token" := Str("abc")])]);
            && r.state.isAuthenticated && r.state.token == "abc" && !r.state.authInProgress
            && r.state.intervalHandle
            && r.trace == Sends(queued) + [ResultHook(map["Token" := Str("abc")])]
  {
    var env := ScenarioEnv(oracle);
    var s := Init().(wsOpen := true, sessionId := "sess1", authInProgress := true, unsent := queued);
    var data := map["Token" := Str("abc")];
    var frame := [Num(3), Str("id"), Obj(data)];
    DecodeCallResult("id", data);
    DispatchRoutes(env, s, frame);
    assert IsAuthResult(Some(data)) && TokenOf(data) == "abc";
  }

  /** An event on the logs topic with `Action` 3 reaches the logs hook as an initial batch. */
  lemma LogsEventScenario(oracle: CallId.Oracle, s: State, items: seq<Value>)
    ensures var data := map["Action" := Num(3), "Items" := Arr(items)];
            var r := HandleSocketMessage(ScenarioEnv(oracle), s, [Num(8), Str(BaseUri + LogsPath), Obj(data)]);
            && r.state == s
            && r.trace == [DataReceivedHook(BaseUri + LogsPath, data), LogsReceivedHook(true, Some(Arr(items)))]
  {
    var uri := BaseUri + LogsPath;
    var data := map["Action" := Num(3), "Items" := Arr(items)];
    DecodeEvent(uri, data);
    assert uri[|BaseUri|..|BaseUri| + |LogsPath|] == LogsPath;
    Text.IncludesAt(uri, LogsPath, |BaseUri|);
    assert Field(data, "Action") == Some(Num(3)) && Field(data, "Items") == Some(Arr(items));
  }

  /** A subscribe error removes the topic and reports it to the subscribe-error hook only. */
  lemma SubscribeErrorScenario(oracle: CallId.Oracle, s: State)
    requires Seqs.NoDuplicates(s.subscribes)
    ensures var data := map["SubscribeError" := Str("denied")];
            var r := HandleSocketMessage(ScenarioEnv(oracle), s, [Num(8), Str("topicX"), Obj(data)]);
            && "topicX" !in r.state.subscribes
            && r.trace == [SubscribeErrorHook("topicX")]
  {
    var data := map["SubscribeError" := Str("denied")];
    DecodeEvent("topicX", data);
    assert Truthy(Field(data, "SubscribeError"));
  }
}

=== FILE: subscriptions.dfy ===
/** The subscription registry (`subscribes`): the URIs currently subscribed to. */
module Subscriptions {
  import opened Seqs

  /** `indexOf`: position of the first occurrence of `uri`. */
  function IndexOf(subs: seq<string>, uri: string): (i: nat)
    requires uri in subs
    ensures i < |subs| && subs[i] == uri
    ensures forall j :: 0 <= j < i ==> subs[j] != uri
  {
    if subs[0] == uri then 0 else 1 + IndexOf(subs[1..], uri)
  }

  /**
   * `updateSubscribes(uri, isActive)`: adds an absent URI when activating,
   * removes the first occurrence of a present URI when deactivating, and
   * otherwise leaves the registry alone.
   */
  function Update(subs: seq<string>, uri: string, isActive: bool): (r: seq<string>)
    ensures (uri in subs) == isActive ==> r == subs
    ensures isActive ==> uri in r
    ensures NoDuplicates(subs) && !isActive ==> uri !in r
    ensures forall u :: u != uri ==> (u in r <==> u in subs)
    ensures NoDuplicates(subs) ==> NoDuplicates(r)
  {
    if (uri in subs && isActive) || (uri !in subs && !isActive) then
      subs
    else if uri in subs && !isActive then
      var i := IndexOf(subs, uri);
      assert forall k :: 0 <= k < |subs| && k != i ==> subs[k] in subs[..i] + subs[i + 1..];
      subs[..i] + subs[i + 1..]
    else
      subs + [uri]
  }

  /** Activating twice is activating once; likewise deactivating. */
  lemma UpdateIdempotent(subs: seq<string>, uri: string, isActive: bool)
    requires NoDuplicates(subs)
    ensures Update(Update(subs, uri, isActive), uri, isActive) == Update(subs, uri, isActive)
  {
  }

  /** Deactivating undoes a fresh activation. */
  lemma ActivateThenDeactivate(subs: seq<string>, uri: string)
    requires uri !in subs
    ensures Update(Update(subs, uri, true), uri, false) == subs
  {
    var r := subs + [uri];
    assert forall k :: 0 <= k < |subs| ==> r[k] == subs[k];
    assert r[..|subs|] == subs;
  }
}

=== FILE: text.dfy ===
/**
 * The two string operations the session uses: `String.prototype.includes`
 * and `String.prototype.toLowerCase`.
 */
module Text {

  /** `p` is a prefix of `s`. */
  predicate IsPrefix(p: string, s: string) {
    |p| <= |s| && s[..|p|] == p
  }

  /** `needle` occurs in `hay` starting at index `i`. */
  predicate OccursAt(needle: string, hay: string, i: int) {
    0 <= i && i + |needle| <= |hay| && hay[i..i + |needle|] == needle
  }

  /** Reference definition: `needle` occurs somewhere in `hay`. */
  ghost predicate IsInfix(needle: string, hay: string) {
    exists i :: OccursAt(needle, hay, i)
  }

  /** `hay.includes(needle)`, by scanning each start position. */
  function Includes(hay: string, needle: string): bool
    decreases |hay|
  {
    IsPrefix(needle, hay) || (|hay| > 0 && Includes(hay[1..], needle))
  }

  /** Shifting the start by one character shifts every occurrence by one. */
  lemma OccursAtTail(needle: string, hay: string, i: nat)
    requires |hay| > 0
    ensures OccursAt(needle, hay[1..], i) <==> OccursAt(needle, hay, i + 1)
  {
    if i + |needle| <= |hay[1..]| {
      assert hay[1..][i..i + |needle|] == hay[i + 1..i + 1 + |needle|];
    }
  }

  /** When the scan succeeds, it has found an occurrence. */
  lemma {:induction false} IncludesWitness(hay: string, needle: string) returns (i: nat)
    requires Includes(hay, needle)
    ensures OccursAt(needle, hay, i)
    decreases |hay|
  {
    if IsPrefix(needle, hay) {
      i := 0;
    } else {
      var j := IncludesWitness(hay[1..], needle);
      OccursAtTail(needle, hay, j);
      i := j + 1;
    }
  }

  /** An occurrence at a known position is found by the scan. */
  lemma {:induction false} IncludesAt(hay: string, needle: string, i: nat)
    requires OccursAt(needle, hay, i)
    ensures Includes(hay, needle)
    decreases i
  {
    if i > 0 {
      OccursAtTail(needle, hay, i - 1);
      IncludesAt(hay[1..], needle, i - 1);
    }
  }

  /** The scan agrees with the reference definition, in both directions. */
  lemma IncludesIsInfix(hay: string, needle: string)
    ensures Includes(hay, needle) <==> IsInfix(needle, hay)
  {
    if Includes(hay, needle) {
      var i := IncludesWitness(hay, needle);
    }
    if IsInfix(needle, hay) {
      var i :| OccursAt(needle, hay, i);
      IncludesAt(hay, needle, i);
    }
  }

  /** Lower-cases one character; only the ASCII letters `A`-`Z` change. */
  function LowerChar(c: char): char {
    if 'A' <= c <= 'Z' then (c as int + 32) as char else c
  }

  /** `s.toLowerCase()` restricted to ASCII letters. */
  function ToLower(s: string): (r: string)
    ensures |r| == |s|
    ensures forall i :: 0 <= i < |s| ==> r[i] == LowerChar(s[i])
  {
    if s == [] then [] else [LowerChar(s[0])] + ToLower(s[1..])
  }

  /** Lower-casing twice is lower-casing once. */
  lemma ToLowerIdempotent(s: string)
    ensures ToLower(ToLower(s)) == ToLower(s)
  {
    var l := ToLower(s);
    assert forall i :: 0 <= i < |s| ==> ToLower(l)[i] == LowerChar(LowerChar(s[i])) == l[i];
  }
}

=== FILE: wrappers.dfy ===
/** Optional values, used for JSON fields that may be absent. */
module Wrappers {

  datatype Option<+T> = None | Some(value: T)
}
